=== FILE: README.md ===
# PyNotes in Dafny

A model of the decision logic of PyNotes, a terminal note-taking tool. The tool resolves:

- a notes directory;
- an editor;
- a note's file path, confined to the notes directory.

It then runs the editor on that path. After a clean editor exit it optionally runs `git add .`, `git commit` and `git push` in the notes directory. Here, everything the tool learns from the outside world is an input:

- the loaded configuration;
- the platform name and the `EDITOR` value;
- whether `which nano` succeeds;
- `HOME` and the working directory;
- the clock readings;
- the editor's exit code, git's answers, and whether a file exists.

The operations are pure functions from those inputs to an outcome and the ordered list of subprocess commands they would launch.

Modules:

- `Paths` (`paths.dfy`) implements POSIX paths the way Python's `posixpath` handles them:
  - `str.split("/")` and `"/".join`;
  - `normpath` as a left fold of the pieces onto a stack of segments: empty pieces and `.` vanish, and `..` pops a segment or stays put at the root;
  - the exactly-two-leading-slashes rule of `normpath`;
  - `expanduser`, `join`, `abspath` and `commonpath`.

  `SafePath` is `_get_safe_path`. It compares strings, as the source does, and is proved to return only paths at or below the base. `SafePathIff` characterises exactly when it succeeds.
- `Config` (`config.dfy`) holds the INI file as a section → key → string map, the defaults from `PyNotes.__init__`, and editor resolution.
- `GitSync` (`git_sync.dfy`) is `_git_sync`: the commands issued in order, stopping after the first failing step, and the message logged.
- `Notes` (`notes.dfy`) holds `_open_note`, `daily_note`, `new_note` and `edit_note`, with extension normalisation.
- `Strings` and `Wrappers` hold small helpers: `endswith`, `in`, ASCII `lower`, `Option` and `Result`.

Two behaviours of the source are worth knowing:

- **A commit that fails with "nothing to commit" ends the sync, and no push follows.** The failing `check=True` call jumps to the `except` block, which only picks the log message. So the push is never attempted (`GitSync.NothingToCommitStopsChain`).
- **A notes directory whose normal form starts with exactly `//` rejects every note.** `normpath` keeps the two slashes, but `commonpath` answers with one, so the string comparison never holds (`Paths.DoubleRootRejectsEverything`).

## Model

| member | source | states |
|---|---|---|
| Paths.SafePath | pynotes.py:143-153 | A returned path is absolute and its segments extend the normalised base's segments, i.e. it is the base or lies below it. Success needs a single-slash base. An error carries the offending file name. |
| Paths.SafePathIff | pynotes.py:143-153 | Success happens exactly when the base has one leading slash and its segments are a prefix of the normalised target's; the result is then the rendered target. Otherwise the result is the containment error. |
| Paths.CommonPathIsBase | pynotes.py:150 | `commonpath([base, target]) == base` on normalised strings holds iff the base is single-rooted and its segments are a prefix of the target's. |
| Paths.JoinParse | pynotes.py:146-148 | Normalising `join(base, name)` equals folding the name's pieces onto the base's segments; an absolute name replaces the base. |
| Paths.RelativeNameStaysInside | pynotes.py:145-151 | For a base that normalises with one leading slash, a relative name with no `..` piece is accepted. It lands on the base's segments followed by the name's non-empty, non-`.` pieces. |
| Paths.ClimbEscapes | pynotes.py:145-153 | A name of k ≥ 1 leading `../` pieces followed by `rest` is refused for a base other than `/` when no piece of `rest` is `..` and none equals the shallowest base directory climbed out of. For `/a/b/c` with k = 2 that directory is `b`; once the climb reaches the root, it is the base's first directory. |
| Paths.EtcPasswdEscapes | pynotes.py:145-153 | `../../etc/passwd` is refused from any base at least two levels deep whose parent is not named `etc` or `passwd`. |
| Paths.ParentEscapes | pynotes.py:150-153 | A name `../rest` is refused when no piece of `rest` is `..` and none equals the name of the base's last directory. |
| Paths.AbsoluteNameReplacesBase | pynotes.py:146-151 | An absolute name is accepted iff its own normal form lies at or below the base, and the result is that normal form. |
| Paths.DoubleRootRejectsEverything | pynotes.py:145-153 | A base whose normal form starts with exactly `//` refuses every name. |
| Paths.ChildOfBase | pynotes.py:145-151 | For a base that normalises with one leading slash and at least one segment, a plain segment name resolves to the normalised base, `/`, and the name. |
| Paths.NormalDirIsBase | pynotes.py:145 | An absolute, single-rooted directory already in normal form, other than `/`, is its own expanded, absolute, normalised base. |
| Paths.ChildOfNormalDir | pynotes.py:145-151 | For a directory already in normal form (one leading slash, not `/`), a plain segment name resolves to `dir + "/" + name`. |
| Paths.ParseRender | pynotes.py:145-148 | Rendering a normalised path and parsing it back gives the same root and segments. |
| Paths.NormPathIdempotent | pynotes.py:145-148 | `normpath` applied twice equals `normpath` applied once. |
| Paths.SplitJoin | pynotes.py:150 | Splitting the `/`-join of a non-empty list of slash-free pieces gives the pieces back. |
| Paths.JoinSplit | pynotes.py:150 | `/`-joining the pieces of a split gives the text back. |
| Paths.JoinInjective | pynotes.py:150 | Distinct well-formed segment lists render to distinct texts, so comparing rendered paths compares segments. |
| Paths.CommonPrefix | pynotes.py:150 | The result is a prefix of both lists and cannot be extended: it ends one of them or stops at the first mismatch. |
| Paths.TrimTrailingSlashes | pynotes.py:145 | The result is a prefix of the input that does not end in `/`, and only slashes were removed. |
| Config.Load | pynotes.py:16-23 | Editor, directory and extension are never empty. A missing or empty `note_directory` gives `~/notes`, and a missing or empty `default_extension` gives `.md`; non-empty values are kept verbatim. The editor is the configured one or, failing that, the platform default. `use_git` and `auto_push` stay unset exactly when missing, and a present value is kept as its raw text. |
| Config.LoadEditorIsFirstCandidate | pynotes.py:16-17 | For every configuration, the loaded editor is the first non-empty entry of the precedence list headed by `[CORE] default_editor`. No other key affects it. |
| Config.LoadKeepsConfiguredValues | pynotes.py:16-23 | A file that sets every key, the `[CORE]` ones non-empty, is taken verbatim: editor, directory, extension and both raw `[GIT]` texts. |
| Config.LoadWithoutFile | pynotes.py:16-23 | Without a configuration file every default applies: the default editor, `~/notes`, `.md`, and both switches unset. |
| Config.DefaultEditor | pynotes.py:54-68 | The editor is never empty. Its order is proved by `Config.DefaultEditorIsFirstCandidate`. |
| Config.DefaultEditorIsFirstCandidate | pynotes.py:54-68 | Without a configured editor, the default is the first non-empty entry of: `notepad.exe` on Windows, `EDITOR`, `nano` if probed, `vim`. |
| Config.ResolveEditor | pynotes.py:17 | The editor is never empty, and a non-empty configured editor is used verbatim. |
| Config.ResolveEditorIsFirstCandidate | pynotes.py:54-68 | The resolved editor is the first non-empty entry of the precedence list: configured editor, `notepad.exe` on Windows, `EDITOR`, `nano` if probed, `vim`. |
| Config.EditorResolutionOrder | pynotes.py:54-68 | Case by case: a configured editor wins; otherwise Windows gives `notepad.exe` whatever `EDITOR` is; otherwise a non-empty `EDITOR`; otherwise `nano` when the probe succeeds, else `vim`. |
| Config.ProbeDecidesOnlyLast | pynotes.py:59-66 | The `which nano` answer changes the editor iff no configured editor, no Windows and no non-empty `EDITOR` applies. |
| Config.FirstNonEmpty | pynotes.py:54-68 | Returns nothing iff all entries are empty; otherwise it returns an entry that is non-empty and preceded only by empty ones. |
| Config.LinuxDefaults | tests/test_main.py:18-29 | On Linux with no file, no `EDITOR` and `nano` found: editor `nano`, `~/notes`, `.md`, both switches unset. |
| Config.WindowsDefaults | tests/test_main.py:37-43 | On Windows with no file, the editor is `notepad.exe` whatever `EDITOR` and the probe say. |
| GitSync.Sync | pynotes.py:71-103 | No command is issued iff sync is disabled. The commands are a prefix of the planned add/commit/push chain, all run in the notes directory. A push appears only after add and commit succeeded. The log is characterised by `GitSync.SyncLogFollowsLastStep`. |
| GitSync.SyncLogFollowsLastStep | pynotes.py:78-103 | With sync on, the log ends in a failure entry iff the last issued command failed. That entry is read from the output this command captured. "Git Sync Complete" precedes it iff the failing command is the push, and is the whole log otherwise. |
| GitSync.CommitFailureLog | pynotes.py:80-103 | A failed commit issues add and commit only. It logs "no changes" iff stdout+stderr contains "nothing to commit", and otherwise an error carrying stdout+stderr. |
| GitSync.PushFailureAfterComplete | pynotes.py:87-103 | A failed push is issued after add and commit. The log is "Git Sync Complete" followed by the entry for the push's stdout+stderr. |
| GitSync.UntilFailure | pynotes.py:78-97 | The issued commands are a prefix of the chain. Every issued step before the last succeeded, and the chain was cut short only by a failure of its last issued step. |
| GitSync.SyncIssuesPlanUntilFailure | pynotes.py:78-97 | Sync's commands equal the planned chain cut after its first failing step. |
| GitSync.DisabledSyncIsSilent | pynotes.py:72-74 | Sync issues nothing and logs the disabled notice iff `str(use_git).lower()` is `false`; a missing `use_git` disables. |
| GitSync.UseGitTexts | pynotes.py:72 | `false` in any casing and the missing default disable sync. An empty value, `no` or `0` enable it. |
| GitSync.MissingAutoPushNeverPushes | pynotes.py:88 | Without `auto_push` no push command is ever issued. |
| GitSync.NothingToCommitStopsChain | pynotes.py:80-101 | When commit fails with "nothing to commit" on stdout or on stderr, exactly add and commit are issued and only the informational message is logged, even with `auto_push` on. |
| GitSync.AddFailureIsError | pynotes.py:79-103 | A failing `git add` issues only itself and always logs an error with empty output: its streams are not captured. |
| GitSync.CompleteMeansCommitted | pynotes.py:79-87 | "Git Sync Complete" is logged iff sync is enabled and both add and commit succeeded. |
| GitSync.FailureLog | pynotes.py:97-103 | A failure is logged as "no changes" iff its captured output contains "nothing to commit"; otherwise it is an error carrying that output. |
| GitSync.SyncScenario | tests/test_main.py:76-95 | With both switches `True` and every call succeeding, the commands are add, a commit with message `PyNote Update: 2025-01-01 10:30:00`, and push, all in the notes directory. |
| Strings.ContainsInContext | pynotes.py:98-100 | Text containing "nothing to commit" still contains it when stdout and stderr are concatenated around it. |
| Notes.WithExtension | pynotes.py:160-161 | The result ends with the extension. A name already ending with the extension is unchanged, and any other name gets the extension appended. |
| Notes.WithExtensionIdempotent | pynotes.py:160-161 | Normalising the extension twice equals normalising it once. |
| Notes.OpenNote | pynotes.py:155-171 | An empty name exits with status 1. The result is true iff the path is safe and the editor exited 0. Something is launched iff the name is non-empty and the path is safe; the first command is exactly `[editor, safe path]`, and later ones (the sync's) only follow exit code 0. |
| Notes.EditorStaysInNotes | pynotes.py:162-163 | The editor is only launched on an absolute path whose segments extend the notes directory's. |
| Notes.EscapingNameLaunchesNothing | pynotes.py:162-168 | A name whose normalised join leaves the notes directory returns false and launches neither the editor nor git. |
| Notes.ParentNameLaunchesNothing | pynotes.py:162-168 | A name `../rest` returns false and launches nothing when, after the extension is added, no piece of `rest` is `..` and none equals the name of the notes directory's last component. |
| Notes.SyncOnlyAfterEditor | pynotes.py:163-165 | Git's first command follows the editor only after exit code 0, and git's answers never change the returned result. |
| Notes.NoteInDirectory | pynotes.py:160-162 | In a directory already in normal form, a note whose name with extension is one path segment resolves to `dir + "/" + name-with-extension`. |
| Notes.DailyNote | pynotes.py:174-176 | A non-empty date never hits the usage exit. |
| Notes.NoteUnderBase | pynotes.py:160-162 | When the notes directory normalises with one leading slash and is not `/`, a note whose name with extension is one segment resolves to `<notes>/name+ext`. Here `<notes>` is the directory with `~` expanded, made absolute and normalised. |
| Notes.DailyNotePath | pynotes.py:174-176 | When the notes directory normalises with one leading slash and is not `/`, and the extension is `.md`, the daily note for a non-empty, slash-free date D not already ending in `.md` opens `<notes>/D.md`. The configured directory need not be written in normal form; `~/notes`, for example, is expanded first. |
| Notes.DailyNoteRun | pynotes.py:160-176 | Under the same premises as `Notes.DailyNotePath`, and when the editor exits 0, the daily note runs the editor on `<notes>/D.md`, then the whole sync, and returns true. |
| Notes.EditorThenSync | pynotes.py:160-171 | A safe note whose editor exits 0 launches the editor on its path, then the sync's commands, and returns true. |
| Notes.DailyNoteScenario | tests/test_main.py:47-97 | For the sync test's configuration and date, the commands are the editor on `<dir>/2025-01-01.md`, then add, commit and push in `<dir>`, and the result is true. |
| Notes.NewNote | pynotes.py:178-179 | `new_note` behaves exactly as `_open_note` of an explicit name. An omitted name is the parser's default `New_Note` (pynotes.py:121) and never hits the usage exit; an explicit empty name always does. |
| Notes.NewNoteNamedPath | pynotes.py:178-179 | The directory must normalise with one leading slash and not be `/`. Then `new <name>`, for a non-empty name that stays one path segment with its extension, launches the editor on `<notes>/name+ext`, and the result is the editor's verdict. |
| Notes.NewNoteDefaultPath | pynotes.py:117-125 | Through `new_note` (pynotes.py:178-179): when the notes directory normalises with one leading slash and is not `/`, and the extension is slash-free, `new` without a name opens `<notes>/New_Note<ext>` (`<notes>/New_Note.md` for `.md`). The result is the editor's verdict. |
| Notes.EditNote | pynotes.py:181-194 | With a non-empty extension the usage exit is never taken. A note whose joined path does not exist gives false and launches nothing, unless both the name and the extension are empty, in which case it exits with status 1. |
| Notes.EditMissingNoteLaunchesNothing | pynotes.py:188-194 | `edit` on a note that does not exist returns false and launches neither the editor nor git. |
| Notes.EditExistingNoteOpensIt | pynotes.py:188-191 | `edit` on an existing note behaves exactly like opening it with `_open_note`. |
| Notes.EditEmptyNameNeverExits | pynotes.py:183-187 | With loaded settings, `edit ""` never exits with status 1. It opens the note named by the bare extension if that exists, and otherwise returns false. |
| Notes.EditNoteIntended | pynotes.py:181-194 | Exits with status 1 iff the name is empty. A non-empty name whose note does not exist gives false and launches nothing. |
| Notes.EditIntendedAgrees | pynotes.py:181-187 | The corrected `edit` exits on an empty name and agrees with the original on every other name. |

## Left out

- Running subprocesses is not modelled. The editor's exit code, `which nano`'s success and git's answers are inputs; `subprocess.run` itself is not modelled.
- A launched program may be missing: the editor, `git`, or `which` itself. The source then raises `FileNotFoundError`, which nothing catches, and the model assumes every launched program exists. The same uncaught exception arises when git's working directory `expanduser(note_directory)` is missing (pynotes.py:77-79), for example after `_create_directory` failed. The model assumes that directory exists and returns true there.
- Config.DefaultEditor: "never fails" holds only under that assumption. A missing `which` makes the source crash in `__init__`.
- An argument containing a NUL character makes `subprocess.run` raise `ValueError`, which `_open_note` would report as a failure. This is not modelled.
- `_create_directory` (pynotes.py:46-51) creates the directory with `os.makedirs`. It is a filesystem effect whose failure is only logged.
- `os.path.exists` (pynotes.py:188-190) becomes the `onDisk` predicate passed in.
- `_load_config` (pynotes.py:30-43) is not modelled. The loaded file is given as the section → key → string map; a missing or unreadable file is the empty map. INI parsing is not modelled: key lower-casing, interpolation and the `DEFAULT` section.
- `_get_argparser`, `run` and `main` (pynotes.py:105-141, 197-203) are argument-parsing plumbing. Only the `new` default name `New_Note` is kept.
- Logging is kept only as the sync's message classes; the other log lines are not modelled.
- The clocks (pynotes.py:76, 175) are not modelled. The timestamp and date strings are parameters.
- `platform.system()`, `os.getcwd()` and `HOME` are parameters.
- Paths and the note results model `posixpath` only. On Windows `os.path` is `ntpath`, with `\` separators, drive letters, `USERPROFILE` and its own `commonpath`; this is not modelled. For example, `..\..\x` escapes there, whereas the model reads it as one segment. Only the Windows editor choice is modelled.
- `expanduser` expands only `~` and `~/…` from `HOME`. `~user` is left unchanged, as Python does for an unknown user. The password-database fallback when `HOME` is unset is not modelled.
- `normpath` is modelled for absolute paths only. `abspath` always hands it one, so the relative branch is never reached.
- Strings.Lower folds only ASCII letters, while `str.lower()` uses full Unicode case mapping. The comparisons the tool makes (with `false` and `true`) come out the same, because no non-ASCII character lower-cases into the letters of those words.

## Findings

| source | as written | input that shows it | evidently intended | confidence | as-written member | corrected member |
|---|---|---|---|---|---|---|
| pynotes.py:183-187 | `edit_note` appends the extension before its empty-name check. The extension is never empty (it defaults to `.md`), so the `exit(1)` branch is dead. | `edit ""` with extension `.md` does not exit: it looks for `<dir>/.md` and opens it if present. | Reject an empty name with status 1, as `_open_note` does. | medium, not executed | Notes.EditEmptyNameNeverExits | Notes.EditIntendedAgrees |

=== FILE: config.dfy ===
/** Start-up settings of the notes tool: the loaded INI file as a two-level
    map, the defaults applied to missing or empty keys, and the choice of the
    editor executable. */
module Config {
  import opened Wrappers

  /** One INI section: key to raw string value. */
  type Section = map<string, string>

  /** The loaded configuration: section name to section. A missing or
      unreadable file loads as the empty map. */
  type Ini = map<string, Section>

  const DefaultNoteDirectory: string := "~/notes"
  const DefaultExtension: string := ".md"
  const WindowsPlatform: string := "Windows"
  const WindowsEditor: string := "notepad.exe"
  const ProbedEditor: string := "nano"
  const FallbackEditor: string := "vim"

  /** `config.get(section, {}).get(key)`. */
  function Get(ini: Ini, section: string, key: string): (r: Option<string>)
    ensures r.Some? <==> section in ini && key in ini[section]
    ensures r.Some? ==> r.value == ini[section][key]
  {
    if section in ini && key in ini[section] then Some(ini[section][key]) else None
  }

  /** Python's `value or fallback` on an optional string: a missing or empty
      value gives the fallback. */
  function OrElse(v: Option<string>, fallback: string): (r: string)
    ensures r == fallback || (v.Some? && r == v.value && r != "")
    ensures v.Some? && v.value != "" ==> r == v.value
  {
    if v.Some? && v.value != "" then v.value else fallback
  }

  /** A `[GIT]` switch: absent (the Python default `False`) or the raw text. */
  datatype Flag = Unset | Text(raw: string)

  /** `str(value)` of a switch; the absent default prints as `False`. */
  function FlagText(f: Flag): string {
    match f
    case Unset => "False"
    case Text(t) => t
  }

  /** `_get_default_editor`: the platform's editor on Windows, otherwise a
      non-empty `EDITOR`, otherwise `nano` when `which nano` succeeds, else `vim`. */
  function DefaultEditor(platform: string, editorVar: Option<string>, nanoOnPath: bool): (editor: string)
    ensures editor != ""
  {
    if platform == WindowsPlatform then WindowsEditor
    else if editorVar.Some? && editorVar.value != "" then editorVar.value
    else if nanoOnPath then ProbedEditor
    else FallbackEditor
  }

  /** `config_core.get("default_editor") or self._get_default_editor()`. It
      always yields a usable (non-empty) editor, and a configured one wins. */
  function ResolveEditor(configured: Option<string>, platform: string, editorVar: Option<string>, nanoOnPath: bool): (editor: string)
    ensures editor != ""
    ensures configured.Some? && configured.value != "" ==> editor == configured.value
  {
    OrElse(configured, DefaultEditor(platform, editorVar, nanoOnPath))
  }

  /** The first non-empty entry of a list. */
  function FirstNonEmpty(xs: seq<string>): (r: Option<string>)
    ensures r.None? <==> forall i :: 0 <= i < |xs| ==> xs[i] == ""
    ensures r.Some? ==> exists k :: 0 <= k < |xs| && xs[k] == r.value && r.value != ""
                                   && forall i :: 0 <= i < k ==> xs[i] == ""
    decreases |xs|
  {
    if |xs| == 0 then None
    else if xs[0] != "" then Some(xs[0])
    else
      var r := FirstNonEmpty(xs[1..]);
      assert forall i :: 1 <= i < |xs| ==> xs[i] == xs[1..][i - 1];
      r
  }

  /** Editor sources in order of precedence; a source that does not apply
      contributes the empty string. */
  function EditorCandidates(configured: Option<string>, platform: string, editorVar: Option<string>, nanoOnPath: bool): seq<string> {
    [ OrElse(configured, ""),
      if platform == WindowsPlatform then WindowsEditor else "",
      OrElse(editorVar, ""),
      if nanoOnPath then ProbedEditor else "",
      FallbackEditor ]
  }

  /** Editor resolution picks the first applicable source in precedence order. */
  lemma ResolveEditorIsFirstCandidate(configured: Option<string>, platform: string, editorVar: Option<string>, nanoOnPath: bool)
    ensures FirstNonEmpty(EditorCandidates(configured, platform, editorVar, nanoOnPath))
         == Some(ResolveEditor(configured, platform, editorVar, nanoOnPath))
  {
    var xs := EditorCandidates(configured, platform, editorVar, nanoOnPath);
    FirstNonEmptyCons(xs[3], [xs[4]]);
    FirstNonEmptyCons(xs[2], xs[3..]);
    FirstNonEmptyCons(xs[1], xs[2..]);
    FirstNonEmptyCons(xs[0], xs[1..]);
    assert [xs[3]] + [xs[4]] == xs[3..];
    assert [xs[2]] + xs[3..] == xs[2..];
    assert [xs[1]] + xs[2..] == xs[1..];
    assert [xs[0]] + xs[1..] == xs;
  }

  /** Without a configured editor, `_get_default_editor` alone picks the first
      applicable source in precedence order. */
  lemma DefaultEditorIsFirstCandidate(platform: string, editorVar: Option<string>, nanoOnPath: bool)
    ensures FirstNonEmpty(EditorCandidates(None, platform, editorVar, nanoOnPath))
         == Some(DefaultEditor(platform, editorVar, nanoOnPath))
  {
    ResolveEditorIsFirstCandidate(None, platform, editorVar, nanoOnPath);
  }

  lemma FirstNonEmptyCons(x: string, rest: seq<string>)
    ensures FirstNonEmpty([x] + rest) == if x != "" then Some(x) else FirstNonEmpty(rest)
  {
    assert ([x] + rest)[1..] == rest;
  }

  /** The resolution order, case by case. */
  lemma EditorResolutionOrder(configured: Option<string>, platform: string, editorVar: Option<string>, nanoOnPath: bool)
    ensures var e := ResolveEditor(configured, platform, editorVar, nanoOnPath);
      && (configured.Some? && configured.value != "" ==> e == configured.value)
      && (OrElse(configured, "") == "" && platform == WindowsPlatform ==> e == WindowsEditor)
      && (OrElse(configured, "") == "" && platform != WindowsPlatform && OrElse(editorVar, "") != "" ==> e == editorVar.value)
      && (OrElse(configured, "") == "" && platform != WindowsPlatform && OrElse(editorVar, "") == "" ==>
            e == (if nanoOnPath then ProbedEditor else FallbackEditor))
  {
  }

  /** The `which nano` probe changes the choice exactly when nothing before it applies. */
  lemma ProbeDecidesOnlyLast(configured: Option<string>, platform: string, editorVar: Option<string>)
    ensures ResolveEditor(configured, platform, editorVar, true) != ResolveEditor(configured, platform, editorVar, false)
        <==> OrElse(configured, "") == "" && platform != WindowsPlatform && OrElse(editorVar, "") == ""
  {
  }

  /** The settings `PyNotes.__init__` derives from the configuration. */
  datatype Settings = Settings(
    editor: string,
    noteDirectory: string,
    defaultExtension: string,
    useGit: Flag,
    autoPush: Flag)

  function FlagOf(v: Option<string>): (f: Flag)
    ensures v.None? <==> f == Unset
  {
    if v.Some? then Text(v.value) else Unset
  }

  /** `PyNotes.__init__` after the file is loaded: `[CORE]` keys fall back to
      their defaults when missing or empty, `[GIT]` switches stay unset when missing. */
  function Load(ini: Ini, platform: string, editorVar: Option<string>, nanoOnPath: bool): (s: Settings)
    ensures s.editor != "" && s.noteDirectory != "" && s.defaultExtension != ""
    ensures OrElse(Get(ini, "CORE", "note_directory"), "") == "" ==> s.noteDirectory == DefaultNoteDirectory
    ensures OrElse(Get(ini, "CORE", "note_directory"), "") != "" ==> s.noteDirectory == ini["CORE"]["note_directory"]
    ensures OrElse(Get(ini, "CORE", "default_extension"), "") == "" ==> s.defaultExtension == DefaultExtension
    ensures OrElse(Get(ini, "CORE", "default_extension"), "") != "" ==> s.defaultExtension == ini["CORE"]["default_extension"]
    ensures s.editor == ResolveEditor(Get(ini, "CORE", "default_editor"), platform, editorVar, nanoOnPath)
    ensures s.useGit == Unset <==> Get(ini, "GIT", "use_git").None?
    ensures s.autoPush == Unset <==> Get(ini, "GIT", "auto_push").None?
    ensures s.useGit.Text? ==> s.useGit.raw == ini["GIT"]["use_git"]
    ensures s.autoPush.Text? ==> s.autoPush.raw == ini["GIT"]["auto_push"]
  {
    Settings(
      ResolveEditor(Get(ini, "CORE", "default_editor"), platform, editorVar, nanoOnPath),
      OrElse(Get(ini, "CORE", "note_directory"), DefaultNoteDirectory),
      OrElse(Get(ini, "CORE", "default_extension"), DefaultExtension),
      FlagOf(Get(ini, "GIT", "use_git")),
      FlagOf(Get(ini, "GIT", "auto_push")))
  }

  /** The loaded editor is the first applicable source, in precedence order,
      with the `[CORE]` entry first; any other configuration key is irrelevant. */
  lemma LoadEditorIsFirstCandidate(ini: Ini, other: Ini, platform: string, editorVar: Option<string>, nanoOnPath: bool)
    requires Get(other, "CORE", "default_editor") == Get(ini, "CORE", "default_editor")
    ensures FirstNonEmpty(EditorCandidates(Get(ini, "CORE", "default_editor"), platform, editorVar, nanoOnPath))
         == Some(Load(ini, platform, editorVar, nanoOnPath).editor)
    ensures Load(other, platform, editorVar, nanoOnPath).editor == Load(ini, platform, editorVar, nanoOnPath).editor
  {
    ResolveEditorIsFirstCandidate(Get(ini, "CORE", "default_editor"), platform, editorVar, nanoOnPath);
  }

  /** A configuration file with every key set non-empty is taken verbatim. */
  lemma LoadKeepsConfiguredValues(editor: string, dir: string, ext: string, useGit: string, autoPush: string,
                                  platform: string, editorVar: Option<string>, nanoOnPath: bool)
    requires editor != "" && dir != "" && ext != ""
    ensures Load(map[ "CORE" := map["default_editor" := editor, "note_directory" := dir, "default_extension" := ext],
                      "GIT" := map["use_git" := useGit, "auto_push" := autoPush] ],
                 platform, editorVar, nanoOnPath)
         == Settings(editor, dir, ext, Text(useGit), Text(autoPush))
  {
  }

  /** With no configuration file every default applies. */
  lemma LoadWithoutFile(platform: string, editorVar: Option<string>, nanoOnPath: bool)
    ensures Load(map[], platform, editorVar, nanoOnPath)
         == Settings(DefaultEditor(platform, editorVar, nanoOnPath), DefaultNoteDirectory, DefaultExtension, Unset, Unset)
  {
  }

  /** The Linux defaults scenario: no file, no `EDITOR`, `nano` on the path. */
  lemma LinuxDefaults()
    ensures Load(map[], "Linux", None, true) == Settings("nano", "~/notes", ".md", Unset, Unset)
  {
  }

  /** On Windows the platform editor wins over `EDITOR`. */
  lemma WindowsDefaults(editorVar: Option<string>, nanoOnPath: bool)
    ensures Load(map[], "Windows", editorVar, nanoOnPath).editor == "notepad.exe"
  {
  }
}

=== FILE: git_sync.dfy ===
/** `PyNotes._git_sync`: after a successful edit, stage, commit and optionally
    push the notes directory, stopping at the first failing step. */
module GitSync {
  import opened Wrappers
  import opened Strings
  import opened Config

  /** A subprocess invocation: its argument vector and working directory
      (`None` when it inherits the tool's own). */
  datatype Command = Command(argv: seq<string>, cwd: Option<string>)

  /** How a `check=True` subprocess call ends: normally, or with
      `CalledProcessError` carrying whatever it captured. */
  datatype StepResult = Succeeded | Failed(stdout: string, stderr: string)

  /** What git would answer to each of the three calls, were it issued. */
  datatype GitResults = GitResults(add: StepResult, commit: StepResult, push: StepResult)

  /** The messages the sync logs. */
  datatype SyncLog = GitDisabled | SyncComplete | NoChanges | SyncError(output: string)

  /** The commands issued, in order, and the messages logged. */
  datatype SyncRun = SyncRun(commands: seq<Command>, log: seq<SyncLog>)

  const NothingToCommit: string := "nothing to commit"
  const CommitPrefix: string := "PyNote Update: "

  /** Sync runs unless `str(use_git).lower() == "false"`; the absent default prints as `False`. */
  predicate SyncEnabled(useGit: Flag) {
    Lower(FlagText(useGit)) != "false"
  }

  /** Push runs only when `str(auto_push).lower() == "true"`. */
  predicate PushEnabled(autoPush: Flag) {
    Lower(FlagText(autoPush)) == "true"
  }

  function AddCommand(dir: string): Command {
    Command(["git", "add", "."], Some(dir))
  }

  function CommitCommand(dir: string, now: string): Command {
    Command(["git", "commit", "-m", CommitPrefix + now], Some(dir))
  }

  function PushCommand(dir: string): Command {
    Command(["git", "push", "-u", "origin"], Some(dir))
  }

  /** The message for a failed step, from the output the call captured. */
  function FailureLog(output: string): (m: SyncLog)
    ensures m == NoChanges <==> Contains(output, NothingToCommit)
    ensures m != NoChanges ==> m == SyncError(output)
  {
    if Contains(output, NothingToCommit) then NoChanges else SyncError(output)
  }

  /** `git add` runs without `capture_output`, so its error carries no text;
      the other two calls capture both streams. */
  function Captured(r: StepResult, captures: bool): string
    requires r.Failed?
  {
    if captures then r.stdout + r.stderr else ""
  }

  /** The commands sync would issue if every step succeeded. */
  function Planned(useGit: Flag, autoPush: Flag, dir: string, now: string): seq<Command> {
    if !SyncEnabled(useGit) then []
    else [AddCommand(dir), CommitCommand(dir, now)] + (if PushEnabled(autoPush) then [PushCommand(dir)] else [])
  }

  function Outcomes(results: GitResults): seq<StepResult> {
    [results.add, results.commit, results.push]
  }

  /** Runs a chain of commands: each is issued, and the chain stops right after
      the first that fails. */
  function UntilFailure(cmds: seq<Command>, outs: seq<StepResult>): (issued: seq<Command>)
    requires |cmds| <= |outs|
    ensures issued <= cmds
    ensures |issued| == |cmds| || (|issued| > 0 && outs[|issued| - 1].Failed?)
    ensures forall i :: 0 <= i < |issued| - 1 ==> outs[i].Succeeded?
    ensures |issued| == |cmds| && |cmds| > 0 ==> forall i :: 0 <= i < |cmds| - 1 ==> outs[i].Succeeded?
    decreases |cmds|
  {
    if |cmds| == 0 then []
    else if outs[0].Failed? then [cmds[0]]
    else
      var rest := UntilFailure(cmds[1..], outs[1..]);
      assert forall i :: 1 <= i < |outs| ==> outs[i] == outs[1..][i - 1];
      [cmds[0]] + rest
  }

  /** `PyNotes._git_sync` with the clock reading `now`, the notes directory
      `dir` and git's answers passed in. */
  function Sync(useGit: Flag, autoPush: Flag, dir: string, now: string, results: GitResults): (run: SyncRun)
    ensures run.commands == [] <==> !SyncEnabled(useGit)
    ensures run.commands <= Planned(useGit, autoPush, dir, now)
    ensures forall i :: 0 <= i < |run.commands| ==> run.commands[i].cwd == Some(dir)
    ensures PushCommand(dir) in run.commands ==> results.add.Succeeded? && results.commit.Succeeded?
    ensures |run.log| >= 1
  {
    var add := AddCommand(dir);
    var commit := CommitCommand(dir, now);
    var push := PushCommand(dir);
    if !SyncEnabled(useGit) then SyncRun([], [GitDisabled])
    else if results.add.Failed? then SyncRun([add], [FailureLog(Captured(results.add, false))])
    else if results.commit.Failed? then SyncRun([add, commit], [FailureLog(Captured(results.commit, true))])
    else if !PushEnabled(autoPush) then SyncRun([add, commit], [SyncComplete])
    else if results.push.Failed? then SyncRun([add, commit, push], [SyncComplete, FailureLog(Captured(results.push, true))])
    else SyncRun([add, commit, push], [SyncComplete])
  }

  /** The commands issued are exactly the planned chain cut after its first failure. */
  lemma SyncIssuesPlanUntilFailure(useGit: Flag, autoPush: Flag, dir: string, now: string, results: GitResults)
    ensures Sync(useGit, autoPush, dir, now, results).commands
         == UntilFailure(Planned(useGit, autoPush, dir, now), Outcomes(results))
  {
    var plan := Planned(useGit, autoPush, dir, now);
    var outs := Outcomes(results);
    if SyncEnabled(useGit) {
      assert plan[1..][1..] == if PushEnabled(autoPush) then [PushCommand(dir)] else [];
      assert outs[1..][1..] == [results.push];
    }
  }

  /** Disabled means no git command at all; a missing `use_git` disables, and
      every text other than a casing of `false` enables. */
  lemma DisabledSyncIsSilent(useGit: Flag, autoPush: Flag, dir: string, now: string, results: GitResults)
    ensures useGit == Unset ==> Sync(useGit, autoPush, dir, now, results) == SyncRun([], [GitDisabled])
    ensures !SyncEnabled(useGit) <==> Sync(useGit, autoPush, dir, now, results) == SyncRun([], [GitDisabled])
  {
    if useGit == Unset {
      assert Lower("False") == "false";
    }
  }

  /** Only a casing of `false` switches sync off: an empty value or any other
      word such as `no` leaves it on. */
  lemma UseGitTexts()
    ensures !SyncEnabled(Text("false")) && !SyncEnabled(Text("FALSE")) && !SyncEnabled(Unset)
    ensures SyncEnabled(Text("")) && SyncEnabled(Text("no")) && SyncEnabled(Text("0"))
  {
    assert Lower("false") == "false";
    assert Lower("FALSE") == "false";
    assert Lower("False") == "false";
    assert Lower("no") == "no";
    assert Lower("0") == "0";
  }

  /** A missing `auto_push` never pushes. */
  lemma MissingAutoPushNeverPushes(useGit: Flag, dir: string, now: string, results: GitResults)
    ensures PushCommand(dir) !in Sync(useGit, Unset, dir, now, results).commands
  {
    assert Lower("False") != "true";
  }

  /** A commit that fails reporting "nothing to commit", on either stream, is
      logged as informational, but the push is not attempted. */
  lemma NothingToCommitStopsChain(useGit: Flag, autoPush: Flag, dir: string, now: string, results: GitResults)
    requires SyncEnabled(useGit) && results.add.Succeeded? && results.commit.Failed?
    requires Contains(results.commit.stdout, NothingToCommit) || Contains(results.commit.stderr, NothingToCommit)
    ensures Sync(useGit, autoPush, dir, now, results)
         == SyncRun([AddCommand(dir), CommitCommand(dir, now)], [NoChanges])
  {
    var out, err := results.commit.stdout, results.commit.stderr;
    if Contains(out, NothingToCommit) {
      ContainsInContext([], out, err, NothingToCommit);
      assert [] + out + err == out + err;
    } else {
      ContainsInContext(out, err, [], NothingToCommit);
      assert out + err + [] == out + err;
    }
  }

  /** A failed commit is logged from its captured output: informational when it
      mentions "nothing to commit", otherwise an error carrying that output. */
  lemma CommitFailureLog(useGit: Flag, autoPush: Flag, dir: string, now: string, results: GitResults)
    requires SyncEnabled(useGit) && results.add.Succeeded? && results.commit.Failed?
    ensures var output := results.commit.stdout + results.commit.stderr;
      Sync(useGit, autoPush, dir, now, results)
        == SyncRun([AddCommand(dir), CommitCommand(dir, now)],
                   [if Contains(output, NothingToCommit) then NoChanges else SyncError(output)])
  {
  }

  /** A failed push comes after "Git Sync Complete" has already been logged. */
  lemma PushFailureAfterComplete(useGit: Flag, autoPush: Flag, dir: string, now: string, results: GitResults)
    requires SyncEnabled(useGit) && PushEnabled(autoPush)
    requires results.add.Succeeded? && results.commit.Succeeded? && results.push.Failed?
    ensures Sync(useGit, autoPush, dir, now, results)
         == SyncRun([AddCommand(dir), CommitCommand(dir, now), PushCommand(dir)],
                    [SyncComplete, FailureLog(results.push.stdout + results.push.stderr)])
  {
  }

  /** With sync on, the log is decided by the last command issued: it ends in a
      failure entry exactly when that command failed, the entry is read from the
      output that command captured, and "Git Sync Complete" precedes it exactly
      when the failing command is the push. */
  lemma SyncLogFollowsLastStep(useGit: Flag, autoPush: Flag, dir: string, now: string, results: GitResults)
    requires SyncEnabled(useGit)
    ensures var run := Sync(useGit, autoPush, dir, now, results);
      var n := |run.commands|;
      && 1 <= n <= 3
      && var last := Outcomes(results)[n - 1];
      && (last.Failed? <==> run.log[|run.log| - 1] != SyncComplete)
      && (last.Failed? ==> run.log[|run.log| - 1] == FailureLog(Captured(last, n > 1)))
      && (last.Failed? ==> (|run.log| == 2 <==> n == 3))
      && (|run.log| == 2 ==> run.log[0] == SyncComplete)
      && (last.Succeeded? ==> run.log == [SyncComplete])
  {
    SyncIssuesPlanUntilFailure(useGit, autoPush, dir, now, results);
    if results.add.Failed? {
      assert !Contains("", NothingToCommit);
    }
  }

  /** A failing `git add` is always an error: its output is never inspected. */
  lemma AddFailureIsError(useGit: Flag, autoPush: Flag, dir: string, now: string, results: GitResults)
    requires SyncEnabled(useGit) && results.add.Failed?
    ensures Sync(useGit, autoPush, dir, now, results) == SyncRun([AddCommand(dir)], [SyncError("")])
  {
    assert !Contains("", NothingToCommit);
  }

  /** "Git Sync Complete" is logged exactly when both add and commit succeeded. */
  lemma CompleteMeansCommitted(useGit: Flag, autoPush: Flag, dir: string, now: string, results: GitResults)
    ensures SyncComplete in Sync(useGit, autoPush, dir, now, results).log
        <==> SyncEnabled(useGit) && results.add.Succeeded? && results.commit.Succeeded?
  {
    if SyncEnabled(useGit) && results.add.Failed? {
      assert !Contains("", NothingToCommit);
    }
  }

  /** The scenario of the repository's sync test: both switches `True` and every
      git call succeeding gives add, commit with the timestamp, then push. */
  lemma SyncScenario(dir: string)
    ensures Sync(Text("True"), Text("True"), dir, "2025-01-01 10:30:00", GitResults(Succeeded, Succeeded, Succeeded))
         == SyncRun([ Command(["git", "add", "."], Some(dir)),
                      Command(["git", "commit", "-m", "PyNote Update: 2025-01-01 10:30:00"], Some(dir)),
                      Command(["git", "push", "-u", "origin"], Some(dir)) ],
                    [SyncComplete])
  {
    assert Lower("True") == "true";
    assert Lower("True") != "false";
    assert CommitPrefix + "2025-01-01 10:30:00" == "PyNote Update: 2025-01-01 10:30:00";
  }
}

=== FILE: notes.dfy ===
/** The note operations of `PyNotes`: extension normalisation, opening a note
    in the editor followed by a sync, and the `daily`, `new` and `edit`
    commands built on it. */
module Notes {
  import opened Wrappers
  import opened Strings
  import opened Paths
  import opened Config
  import opened GitSync

  /** What the outside world answers during one command: `HOME`, the working
      directory, the clock reading for the commit message, the editor's exit
      code and git's answers. */
  datatype Host = Host(home: string, cwd: AbsString, now: string, editorExit: int, git: GitResults)

  /** How a command ends: `exit(1)` for a missing name, or a boolean return. */
  datatype Outcome = UsageExit | Returned(success: bool)

  /** The outcome of a command and the subprocesses it launched, in order. */
  datatype NoteRun = NoteRun(outcome: Outcome, commands: seq<Command>)

  const DefaultNewName: string := "New_Note"

  /** Appends the extension unless the name already ends with it. */
  function WithExtension(name: string, ext: string): (r: string)
    ensures EndsWith(r, ext)
    ensures name <= r && |r| <= |name| + |ext|
    ensures EndsWith(name, ext) ==> r == name
    ensures !EndsWith(name, ext) ==> r == name + ext
  {
    if EndsWith(name, ext) then name else name + ext
  }

  /** Normalising the extension twice is the same as once. */
  lemma WithExtensionIdempotent(name: string, ext: string)
    ensures WithExtension(WithExtension(name, ext), ext) == WithExtension(name, ext)
  {
  }

  /** The safe path a note name resolves to. */
  function NotePath(s: Settings, h: Host, name: string): Result<string, PathError> {
    SafePath(h.home, h.cwd, s.noteDirectory, WithExtension(name, s.defaultExtension))
  }

  /** The directory git runs in: the note directory with `~` expanded, not normalised. */
  function WorkingDirectory(s: Settings, h: Host): string {
    ExpandUser(h.home, s.noteDirectory)
  }

  function NoteSync(s: Settings, h: Host): SyncRun {
    Sync(s.useGit, s.autoPush, WorkingDirectory(s, h), h.now, h.git)
  }

  /** `PyNotes._open_note`. */
  function OpenNote(s: Settings, h: Host, name: string): (run: NoteRun)
    ensures run.outcome == UsageExit <==> name == ""
    ensures run.outcome == Returned(true) <==> name != "" && NotePath(s, h, name).Ok? && h.editorExit == 0
    ensures run.commands != [] <==> name != "" && NotePath(s, h, name).Ok?
    ensures run.commands != [] ==> run.commands[0] == Command([s.editor, NotePath(s, h, name).value], None)
    ensures |run.commands| > 1 ==> h.editorExit == 0
    ensures run.commands != [] && h.editorExit == 0 ==> run.commands[1..] == NoteSync(s, h).commands
  {
    if name == "" then NoteRun(UsageExit, [])
    else match NotePath(s, h, name)
      case Err(_) => NoteRun(Returned(false), [])
      case Ok(path) =>
        var editor := Command([s.editor, path], None);
        if h.editorExit != 0 then NoteRun(Returned(false), [editor])
        else NoteRun(Returned(true), [editor] + NoteSync(s, h).commands)
  }

  /** `PyNotes.daily_note`, with today's `%Y-%m-%d` date passed in. */
  function DailyNote(s: Settings, h: Host, today: string): (run: NoteRun)
    ensures today != "" ==> run.outcome != UsageExit
  {
    OpenNote(s, h, today)
  }

  /** `PyNotes.new_note`; an omitted name is `New_Note`. */
  function NewNote(s: Settings, h: Host, name: Option<string>): (run: NoteRun)
    ensures name.None? ==> run.outcome != UsageExit
    ensures name == Some("") <==> run.outcome == UsageExit
    ensures name.Some? ==> run == OpenNote(s, h, name.value)
  {
    OpenNote(s, h, if name.Some? then name.value else DefaultNewName)
  }

  /** `PyNotes.edit_note` as written: the extension is appended before the
      empty-name check, and the note is opened only if the unnormalised join of
      the directory and the name exists. */
  function EditNote(s: Settings, h: Host, onDisk: string -> bool, name: string): (run: NoteRun)
    ensures s.defaultExtension != "" ==> run.outcome != UsageExit
    ensures !onDisk(PathJoin(WorkingDirectory(s, h), WithExtension(name, s.defaultExtension))) ==>
              run == NoteRun(Returned(false), []) || run.outcome == UsageExit
  {
    var note := WithExtension(name, s.defaultExtension);
    if note == "" then NoteRun(UsageExit, [])
    else if onDisk(PathJoin(WorkingDirectory(s, h), note)) then OpenNote(s, h, note)
    else NoteRun(Returned(false), [])
  }

  /** `edit_note` with the empty-name check moved before the extension is
      appended, as `_open_note` does it. */
  function EditNoteIntended(s: Settings, h: Host, onDisk: string -> bool, name: string): (run: NoteRun)
    ensures run.outcome == UsageExit <==> name == ""
    ensures name != "" && !onDisk(PathJoin(WorkingDirectory(s, h), WithExtension(name, s.defaultExtension))) ==>
              run == NoteRun(Returned(false), [])
  {
    if name == "" then NoteRun(UsageExit, [])
    else
      var note := WithExtension(name, s.defaultExtension);
      if onDisk(PathJoin(WorkingDirectory(s, h), note)) then OpenNote(s, h, note)
      else NoteRun(Returned(false), [])
  }

  // ---------------------------------------------------------------------------
  // Properties

  /** The editor is only ever pointed at a path at or below the notes directory. */
  lemma EditorStaysInNotes(s: Settings, h: Host, name: string)
    ensures var run := OpenNote(s, h, name);
      run.commands != [] ==>
        && |run.commands[0].argv| == 2
        && IsAbs(run.commands[0].argv[1])
        && Parse(BaseDir(h.home, h.cwd, s.noteDirectory)).segs <= Parse(run.commands[0].argv[1]).segs
  {
  }

  /** A name whose normalised join leaves the notes directory fails without
      launching anything. */
  lemma EscapingNameLaunchesNothing(s: Settings, h: Host, name: string)
    requires name != ""
    requires
      var p := Parse(BaseDir(h.home, h.cwd, s.noteDirectory));
      !(p.segs <= TargetOf(p, WithExtension(name, s.defaultExtension)).segs)
    ensures OpenNote(s, h, name) == NoteRun(Returned(false), [])
  {
    SafePathIff(h.home, h.cwd, s.noteDirectory, WithExtension(name, s.defaultExtension));
  }

  /** A sibling of the notes directory reached with a leading `..` is refused. */
  lemma ParentNameLaunchesNothing(s: Settings, h: Host, rest: string)
    requires
      var p := Parse(BaseDir(h.home, h.cwd, s.noteDirectory));
      var note := WithExtension("../" + rest, s.defaultExtension);
      && |p.segs| > 0 && |note| >= 3 && note[..3] == "../"
      && p.segs[|p.segs| - 1] !in Split(note[3..])
      && forall i :: 0 <= i < |Split(note[3..])| ==> Split(note[3..])[i] != ".."
    ensures OpenNote(s, h, "../" + rest) == NoteRun(Returned(false), [])
  {
    var note := WithExtension("../" + rest, s.defaultExtension);
    assert note == "../" + note[3..];
    ParentEscapes(h.home, h.cwd, s.noteDirectory, note[3..]);
  }

  /** Git runs only after the editor exits with status 0, and the command's
      result does not depend on how git fares. */
  lemma SyncOnlyAfterEditor(s: Settings, h: Host, name: string, other: GitResults)
    ensures var run := OpenNote(s, h, name);
      |run.commands| > 1 ==> h.editorExit == 0 && run.commands[1] == AddCommand(WorkingDirectory(s, h))
    ensures OpenNote(s, h, name).outcome == OpenNote(s, h.(git := other), name).outcome
  {
    var run := OpenNote(s, h, name);
    if |run.commands| > 1 {
      assert NoteSync(s, h).commands != [];
      assert NoteSync(s, h).commands[0] == AddCommand(WorkingDirectory(s, h));
    }
  }

  /** A note name in a directory already in normal form resolves to the
      directory, a separator and the name with its extension. */
  lemma NoteInDirectory(s: Settings, h: Host, name: string)
    requires
      var dir := s.noteDirectory;
      IsAbs(dir) && NormPath(dir) == dir && dir != "/" && RootOf(dir) == Single
    requires IsSegment(WithExtension(name, s.defaultExtension))
    ensures NotePath(s, h, name) == Ok(s.noteDirectory + "/" + WithExtension(name, s.defaultExtension))
  {
    ChildOfNormalDir(h.home, h.cwd, s.noteDirectory, WithExtension(name, s.defaultExtension));
  }

  /** The notes directory as `_get_safe_path` sees it: `~` expanded, made
      absolute and normalised. */
  function NotesHome(s: Settings, h: Host): (d: string)
    ensures IsAbs(d)
  {
    NormPath(BaseDir(h.home, h.cwd, s.noteDirectory))
  }

  /** The notes directory normalises with one leading separator and is not the root. */
  predicate Nested(s: Settings, h: Host) {
    var p := Parse(BaseDir(h.home, h.cwd, s.noteDirectory));
    p.root == Single && p.segs != []
  }

  /** Below a nested notes directory, a note whose name with extension is one
      segment resolves to the normalised directory, a separator and that name. */
  lemma NoteUnderBase(s: Settings, h: Host, name: string)
    requires Nested(s, h)
    requires IsSegment(WithExtension(name, s.defaultExtension))
    ensures NotePath(s, h, name) == Ok(NotesHome(s, h) + "/" + WithExtension(name, s.defaultExtension))
  {
    ChildOfBase(h.home, h.cwd, s.noteDirectory, WithExtension(name, s.defaultExtension));
  }

  /** The daily note for a slash-free date D resolves to `<notes>/D.md` when the
      extension is `.md`, where `<notes>` is the expanded, normalised directory. */
  lemma DailyNotePath(s: Settings, h: Host, today: string)
    requires Nested(s, h)
    requires s.defaultExtension == ".md" && today != "" && '/' !in today && !EndsWith(today, ".md")
    ensures var run := DailyNote(s, h, today);
      run.commands != [] && run.commands[0] == Command([s.editor, NotesHome(s, h) + "/" + today + ".md"], None)
  {
    MarkdownNoteIsSegment(today);
    NoteUnderBase(s, h, today);
    var run := OpenNote(s, h, today);
    assert run.commands != [];
    assert NotePath(s, h, today).value == NotesHome(s, h) + "/" + (today + ".md");
    assert NotesHome(s, h) + "/" + (today + ".md") == NotesHome(s, h) + "/" + today + ".md";
  }

  /** `new` without a name opens `<dir>/New_Note<ext>` (the extension is not
      doubled when `New_Note` already ends with it), and its outcome is the
      editor's verdict. */
  lemma NewNoteDefaultPath(s: Settings, h: Host)
    requires Nested(s, h)
    requires '/' !in s.defaultExtension
    ensures var run := NewNote(s, h, None);
      && run.commands != []
      && run.commands[0] == Command([s.editor, NotesHome(s, h) + "/" + WithExtension(DefaultNewName, s.defaultExtension)], None)
      && run.outcome == Returned(h.editorExit == 0)
    ensures s.defaultExtension == ".md" ==>
      NewNote(s, h, None).commands[0] == Command([s.editor, NotesHome(s, h) + "/" + "New_Note.md"], None)
  {
    var note := WithExtension(DefaultNewName, s.defaultExtension);
    var path := NotesHome(s, h) + "/" + note;
    DefaultNameIsSegment(s.defaultExtension);
    NoteUnderBase(s, h, DefaultNewName);
    assert NotePath(s, h, DefaultNewName) == Ok(path);
    var run := OpenNote(s, h, DefaultNewName);
    assert run.commands[0] == Command([s.editor, path], None);
    assert run.outcome == Returned(h.editorExit == 0);
    assert run == NewNote(s, h, None);
    if s.defaultExtension == ".md" {
      assert note == "New_Note.md";
    }
  }

  /** `new <name>` opens exactly that name: under a nested notes directory a
      name that stays one segment with its extension opens `<notes>/name+ext`,
      and the outcome is the editor's verdict. */
  lemma NewNoteNamedPath(s: Settings, h: Host, name: string)
    requires Nested(s, h)
    requires IsSegment(WithExtension(name, s.defaultExtension))
    ensures name != "" ==>
      var run := NewNote(s, h, Some(name));
      && run.commands != []
      && run.commands[0] == Command([s.editor, NotesHome(s, h) + "/" + WithExtension(name, s.defaultExtension)], None)
      && run.outcome == Returned(h.editorExit == 0)
  {
    if name != "" {
      NoteUnderBase(s, h, name);
      var run := OpenNote(s, h, name);
      assert run.commands != [];
      assert run == NewNote(s, h, Some(name));
    }
  }

  /** `New_Note` with a slash-free extension stays one path segment. */
  lemma DefaultNameIsSegment(ext: string)
    requires '/' !in ext
    ensures IsSegment(WithExtension(DefaultNewName, ext))
    ensures ext == ".md" ==> WithExtension(DefaultNewName, ext) == "New_Note.md"
  {
    var note := WithExtension(DefaultNewName, ext);
    forall i | 0 <= i < |note| ensures note[i] != '/' {
      if i >= |DefaultNewName| {
        assert note[i] == ext[i - |DefaultNewName|];
      }
    }
    if ext == ".md" {
      assert !EndsWith(DefaultNewName, ".md");
    }
  }

  lemma MarkdownNoteIsSegment(name: string)
    requires '/' !in name && !EndsWith(name, ".md")
    ensures WithExtension(name, ".md") == name + ".md"
    ensures IsSegment(name + ".md")
  {
    var note := name + ".md";
    assert |note| == |name| + 3;
    forall i | 0 <= i < |note| ensures note[i] != '/' {
      if i < |name| {
        assert note[i] == name[i];
      } else {
        assert note[i] == ".md"[i - |name|];
      }
    }
  }

  /** `edit` on a missing note fails and launches neither the editor nor git. */
  lemma EditMissingNoteLaunchesNothing(s: Settings, h: Host, onDisk: string -> bool, name: string)
    requires s.defaultExtension != ""
    requires !onDisk(PathJoin(WorkingDirectory(s, h), WithExtension(name, s.defaultExtension)))
    ensures EditNote(s, h, onDisk, name) == NoteRun(Returned(false), [])
  {
  }

  /** `edit` on an existing note behaves exactly as opening it. */
  lemma EditExistingNoteOpensIt(s: Settings, h: Host, onDisk: string -> bool, name: string)
    requires name != ""
    requires onDisk(PathJoin(WorkingDirectory(s, h), WithExtension(name, s.defaultExtension)))
    ensures EditNote(s, h, onDisk, name) == OpenNote(s, h, name)
  {
    WithExtensionIdempotent(name, s.defaultExtension);
  }

  /** With settings as the tool loads them the extension is never empty, so
      `edit ""` never reaches its usage exit: it looks for a note named by the
      bare extension instead. */
  lemma EditEmptyNameNeverExits(ini: Ini, platform: string, editorVar: Option<string>, nanoOnPath: bool,
                                h: Host, onDisk: string -> bool)
    ensures var s := Load(ini, platform, editorVar, nanoOnPath);
      && EditNote(s, h, onDisk, "").outcome != UsageExit
      && EditNote(s, h, onDisk, "")
         == (if onDisk(PathJoin(WorkingDirectory(s, h), s.defaultExtension))
             then OpenNote(s, h, s.defaultExtension) else NoteRun(Returned(false), []))
  {
    var s := Load(ini, platform, editorVar, nanoOnPath);
    assert WithExtension("", s.defaultExtension) == s.defaultExtension;
  }

  /** The corrected `edit` exits on an empty name and otherwise agrees with the
      original. */
  lemma EditIntendedAgrees(s: Settings, h: Host, onDisk: string -> bool, name: string)
    ensures name == "" ==> EditNoteIntended(s, h, onDisk, name) == NoteRun(UsageExit, [])
    ensures name != "" ==> EditNoteIntended(s, h, onDisk, name) == EditNote(s, h, onDisk, name)
  {
  }

  /** The repository's sync scenario end to end: a `[CORE]` section naming
      `nano`, a normal absolute directory and `.md`, a `[GIT]` section with both
      switches `True`, and every subprocess succeeding, gives the editor on
      `<dir>/2025-01-01.md` followed by add, commit and push in the directory. */
  lemma DailyNoteScenario(dir: string, h: Host)
    requires IsAbs(dir) && NormPath(dir) == dir && dir != "/" && RootOf(dir) == Single
    requires h.editorExit == 0 && h.now == "2025-01-01 10:30:00"
    requires h.git == GitResults(Succeeded, Succeeded, Succeeded)
    ensures
      DailyNote(Load(ScenarioIni(dir), "Linux", None, true), h, "2025-01-01")
        == NoteRun(Returned(true), [
             Command(["nano", dir + "/" + "2025-01-01" + ".md"], None),
             Command(["git", "add", "."], Some(dir)),
             Command(["git", "commit", "-m", "PyNote Update: 2025-01-01 10:30:00"], Some(dir)),
             Command(["git", "push", "-u", "origin"], Some(dir))])
  {
    ScenarioLoads(dir);
    DailyScenarioRun(Settings("nano", dir, ".md", Text("True"), Text("True")), h);
  }

  lemma DailyScenarioRun(s: Settings, h: Host)
    requires s.editor == "nano" && s.defaultExtension == ".md"
    requires s.useGit == Text("True") && s.autoPush == Text("True")
    requires var dir := s.noteDirectory;
      IsAbs(dir) && NormPath(dir) == dir && dir != "/" && RootOf(dir) == Single
    requires h.editorExit == 0 && h.now == "2025-01-01 10:30:00"
    requires h.git == GitResults(Succeeded, Succeeded, Succeeded)
    ensures
      var dir := s.noteDirectory;
      DailyNote(s, h, "2025-01-01")
        == NoteRun(Returned(true), [
             Command(["nano", dir + "/" + "2025-01-01" + ".md"], None),
             Command(["git", "add", "."], Some(dir)),
             Command(["git", "commit", "-m", "PyNote Update: 2025-01-01 10:30:00"], Some(dir)),
             Command(["git", "push", "-u", "origin"], Some(dir))])
  {
    assert !EndsWith("2025-01-01", ".md");
    assert '/' !in "2025-01-01";
    DailyScenarioOn(s, h, "2025-01-01");
  }

  lemma DailyScenarioOn(s: Settings, h: Host, today: string)
    requires s.editor == "nano" && s.defaultExtension == ".md"
    requires s.useGit == Text("True") && s.autoPush == Text("True")
    requires var dir := s.noteDirectory;
      IsAbs(dir) && NormPath(dir) == dir && dir != "/" && RootOf(dir) == Single
    requires h.editorExit == 0 && h.now == "2025-01-01 10:30:00"
    requires h.git == GitResults(Succeeded, Succeeded, Succeeded)
    requires today != "" && '/' !in today && !EndsWith(today, ".md")
    ensures
      var dir := s.noteDirectory;
      DailyNote(s, h, today)
        == NoteRun(Returned(true), [
             Command(["nano", dir + "/" + today + ".md"], None),
             Command(["git", "add", "."], Some(dir)),
             Command(["git", "commit", "-m", "PyNote Update: 2025-01-01 10:30:00"], Some(dir)),
             Command(["git", "push", "-u", "origin"], Some(dir))])
  {
    NormalDirIsBase(h.home, h.cwd, s.noteDirectory);
    assert NotesHome(s, h) == s.noteDirectory;
    DailyNoteRun(s, h, today);
    ScenarioSync(s, h);
  }

  lemma ScenarioSync(s: Settings, h: Host)
    requires s.useGit == Text("True") && s.autoPush == Text("True")
    requires IsAbs(s.noteDirectory)
    requires h.now == "2025-01-01 10:30:00" && h.git == GitResults(Succeeded, Succeeded, Succeeded)
    ensures var dir := s.noteDirectory;
      NoteSync(s, h).commands
        == [ Command(["git", "add", "."], Some(dir)),
             Command(["git", "commit", "-m", "PyNote Update: 2025-01-01 10:30:00"], Some(dir)),
             Command(["git", "push", "-u", "origin"], Some(dir)) ]
  {
    assert WorkingDirectory(s, h) == s.noteDirectory;
    SyncScenario(s.noteDirectory);
  }

  /** With a nested notes directory and `.md`, a successful daily edit launches
      the editor on `<notes>/<date>.md` and then the whole sync. */
  lemma DailyNoteRun(s: Settings, h: Host, today: string)
    requires Nested(s, h)
    requires s.defaultExtension == ".md" && today != "" && '/' !in today && !EndsWith(today, ".md")
    requires h.editorExit == 0
    ensures DailyNote(s, h, today)
         == NoteRun(Returned(true), [Command([s.editor, NotesHome(s, h) + "/" + today + ".md"], None)] + NoteSync(s, h).commands)
  {
    MarkdownNoteIsSegment(today);
    NoteUnderBase(s, h, today);
    assert NotesHome(s, h) + "/" + (today + ".md") == NotesHome(s, h) + "/" + today + ".md";
    EditorThenSync(s, h, today, NotesHome(s, h) + "/" + today + ".md");
  }

  /** A safe note whose editor exits with 0 launches the editor on it and then
      the whole sync. */
  lemma EditorThenSync(s: Settings, h: Host, name: string, path: string)
    requires name != "" && NotePath(s, h, name) == Ok(path) && h.editorExit == 0
    ensures OpenNote(s, h, name) == NoteRun(Returned(true), [Command([s.editor, path], None)] + NoteSync(s, h).commands)
  {
  }

  function ScenarioIni(dir: string): Ini {
    map[
      "CORE" := map["default_editor" := "nano", "note_directory" := dir, "default_extension" := ".md"],
      "GIT" := map["use_git" := "True", "auto_push" := "True"]]
  }

  lemma ScenarioLoads(dir: string)
    requires dir != ""
    ensures Load(ScenarioIni(dir), "Linux", None, true) == Settings("nano", dir, ".md", Text("True"), Text("True"))
  {
  }

}

=== FILE: paths.dfy ===
/** POSIX path handling as Python's `posixpath` performs it for the notes tool:
    splitting on '/', `normpath` as a fold of the pieces onto a stack of
    segments, `expanduser`, `join`, `abspath` and `commonpath`, and the
    containment check built from them. */
module Paths {
  import opened Wrappers
  import opened Strings

  /** `os.path.isabs`: the path starts with a separator. */
  predicate IsAbs(s: string) {
    |s| > 0 && s[0] == '/'
  }

  /** An absolute path string, such as the one `os.getcwd()` returns. */
  type AbsString = s: string | IsAbs(s) witness "/"

  predicate NoSlash(parts: seq<string>) {
    forall i :: 0 <= i < |parts| ==> '/' !in parts[i]
  }

  /** A segment that survives normalisation: non-empty, not `.` or `..`, no separator. */
  predicate IsSegment(p: string) {
    p != "" && p != "." && p != ".." && '/' !in p
  }

  predicate WellFormed(segs: seq<string>) {
    forall i :: 0 <= i < |segs| ==> IsSegment(segs[i])
  }

  /** `s.split("/")`: the pieces between separators, always at least one. */
  function Split(s: string): (parts: seq<string>)
    ensures |parts| >= 1
    ensures NoSlash(parts)
    decreases |s|
  {
    if |s| == 0 then [""]
    else
      var rest := Split(s[1..]);
      if s[0] == '/' then [""] + rest
      else [[s[0]] + rest[0]] + rest[1..]
  }

  /** `"/".join(parts)`. */
  function Join(parts: seq<string>): string
    decreases |parts|
  {
    if |parts| == 0 then ""
    else if |parts| == 1 then parts[0]
    else parts[0] + "/" + Join(parts[1..])
  }

  /** One piece of `normpath` for an absolute path: empty pieces and `.` are
      dropped, `..` removes the last segment and stays put at the root. */
  function Step(stack: seq<string>, part: string): seq<string> {
    if part == "" || part == "." then stack
    else if part == ".." then (if |stack| == 0 then stack else stack[..|stack| - 1])
    else stack + [part]
  }

  /** Folds pieces onto a stack of segments, left to right. */
  function Resolve(stack: seq<string>, parts: seq<string>): (r: seq<string>)
    ensures WellFormed(stack) && NoSlash(parts) ==> WellFormed(r)
    decreases |parts|
  {
    if |parts| == 0 then stack else Resolve(Step(stack, parts[0]), parts[1..])
  }

  /** `normpath` keeps exactly two leading separators and folds three or more into one. */
  datatype Root = Single | Double

  /** A normalised absolute path: its root and its segments. */
  datatype Path = Path(root: Root, segs: seq<string>)

  function RootOf(s: string): Root
    requires IsAbs(s)
  {
    if |s| >= 2 && s[1] == '/' && (|s| == 2 || s[2] != '/') then Double else Single
  }

  function Parse(s: string): (p: Path)
    requires IsAbs(s)
    ensures WellFormed(p.segs)
  {
    Path(RootOf(s), Resolve([], Split(s)))
  }

  function Lead(root: Root): string {
    if root == Double then "//" else "/"
  }

  function Render(p: Path): (s: string)
    ensures IsAbs(s)
  {
    Lead(p.root) + Join(p.segs)
  }

  /** `os.path.normpath` of an absolute path. */
  function NormPath(s: string): (r: string)
    requires IsAbs(s)
    ensures IsAbs(r)
  {
    Render(Parse(s))
  }

  /** Strips every trailing separator, as `str.rstrip("/")` does. */
  function TrimTrailingSlashes(s: string): (r: string)
    ensures r <= s
    ensures r == "" || r[|r| - 1] != '/'
    ensures forall i :: |r| <= i < |s| ==> s[i] == '/'
    decreases |s|
  {
    if |s| > 0 && s[|s| - 1] == '/' then TrimTrailingSlashes(s[..|s| - 1]) else s
  }

  /** `os.path.expanduser` with `home` as the value of `HOME`: a leading `~`
      followed by nothing or a separator becomes the home directory. */
  function ExpandUser(home: string, s: string): (r: string)
    ensures !(|s| > 0 && s[0] == '~') ==> r == s
    ensures |s| > 0 && s[0] == '~' && (|s| == 1 || s[1] == '/') ==> r != "" && EndsWith(r, s[1..])
  {
    if |s| > 0 && s[0] == '~' && (|s| == 1 || s[1] == '/') then
      var expanded := TrimTrailingSlashes(home) + s[1..];
      if expanded == "" then "/" else expanded
    else s
  }

  /** `os.path.join(a, b)`: an absolute `b` replaces `a`, otherwise a separator
      is inserted unless `a` is empty or already ends with one. */
  function PathJoin(a: string, b: string): (r: string)
    ensures IsAbs(b) ==> r == b
    ensures !IsAbs(b) ==> a <= r && EndsWith(r, b)
    ensures IsAbs(a) ==> IsAbs(r)
  {
    if IsAbs(b) then b
    else if a == "" || a[|a| - 1] == '/' then a + b
    else a + "/" + b
  }

  /** `os.path.abspath`, with the working directory passed in. */
  function AbsPath(cwd: AbsString, s: string): (r: string)
    ensures IsAbs(r)
  {
    NormPath(if IsAbs(s) then s else PathJoin(cwd, s))
  }

  /** Drops the pieces `commonpath` ignores: empty ones and `.`. */
  function Clean(parts: seq<string>): (r: seq<string>)
    ensures |r| <= |parts|
    ensures forall i :: 0 <= i < |r| ==> r[i] != "" && r[i] != "."
    decreases |parts|
  {
    if |parts| == 0 then []
    else if parts[0] == "" || parts[0] == "." then Clean(parts[1..])
    else [parts[0]] + Clean(parts[1..])
  }

  /** The longest common prefix of two segment lists. */
  function CommonPrefix(a: seq<string>, b: seq<string>): (r: seq<string>)
    ensures r <= a && r <= b
    ensures |r| == |a| || |r| == |b| || a[|r|] != b[|r|]
    decreases |a|
  {
    if |a| == 0 || |b| == 0 || a[0] != b[0] then []
    else [a[0]] + CommonPrefix(a[1..], b[1..])
  }

  /** `os.path.commonpath([a, b])`; `None` stands for the `ValueError` raised
      when one path is absolute and the other is not. */
  function CommonPath(a: string, b: string): (r: Option<string>)
    ensures r.None? <==> IsAbs(a) != IsAbs(b)
  {
    if IsAbs(a) != IsAbs(b) then None
    else Some((if IsAbs(a) then "/" else "") + Join(CommonPrefix(Clean(Split(a)), Clean(Split(b)))))
  }

  /** The `ValueError` raised for a note name that leaves the notes directory. */
  datatype PathError = OutsideNotes(filename: string)

  /** The base directory the containment check works against. */
  function BaseDir(home: string, cwd: AbsString, dir: string): (r: string)
    ensures IsAbs(r)
  {
    AbsPath(cwd, ExpandUser(home, dir))
  }

  /** Where `filename` lands once joined onto the normalised base `p` and normalised. */
  function TargetOf(p: Path, filename: string): (q: Path)
    requires WellFormed(p.segs)
    ensures WellFormed(q.segs)
  {
    if IsAbs(filename) then Parse(filename) else Path(p.root, Resolve(p.segs, Split(filename)))
  }

  /** `PyNotes._get_safe_path`: the normalised join of the base directory and
      `filename`, or the containment error when the common path of the two is
      not the base directory. A returned path always lies at or below the base. */
  function SafePath(home: string, cwd: AbsString, dir: string, filename: string): (r: Result<string, PathError>)
    ensures r.Err? ==> r.error == OutsideNotes(filename)
    ensures r.Ok? ==> IsAbs(r.value) && Parse(BaseDir(home, cwd, dir)).segs <= Parse(r.value).segs
    ensures r.Ok? ==> Parse(BaseDir(home, cwd, dir)).root == Single
  {
    SafePathCharacterised(home, cwd, dir, filename);
    var base := BaseDir(home, cwd, dir);
    var target := AbsPath(cwd, PathJoin(base, filename));
    if CommonPath(base, target) == Some(base) then Ok(target) else Err(OutsideNotes(filename))
  }

  // ---------------------------------------------------------------------------
  // Splitting and joining

  lemma SplitAfterSlash(x: string)
    ensures Split("/" + x) == [""] + Split(x)
  {
    assert ("/" + x)[1..] == x;
  }

  lemma {:induction false} SplitNoSlash(x: string)
    requires '/' !in x
    ensures Split(x) == [x]
    decreases |x|
  {
    if |x| > 0 {
      SplitNoSlash(x[1..]);
      assert [x[0]] + x[1..] == x;
    }
  }

  /** A separator between two texts separates their pieces. */
  lemma {:induction false} SplitConcatSlash(x: string, y: string)
    ensures Split(x + "/" + y) == Split(x) + Split(y)
    decreases |x|
  {
    if |x| == 0 {
      assert x + "/" + y == "/" + y;
      SplitAfterSlash(y);
    } else {
      assert (x + "/" + y)[1..] == x[1..] + "/" + y;
      assert (x + "/" + y)[0] == x[0];
      SplitConcatSlash(x[1..], y);
    }
  }

  /** Joining then splitting gives the pieces back. */
  lemma {:induction false} SplitJoin(parts: seq<string>)
    requires |parts| >= 1 && NoSlash(parts)
    ensures Split(Join(parts)) == parts
    decreases |parts|
  {
    if |parts| == 1 {
      SplitNoSlash(parts[0]);
    } else {
      SplitConcatSlash(parts[0], Join(parts[1..]));
      SplitNoSlash(parts[0]);
      SplitJoin(parts[1..]);
      assert [parts[0]] + parts[1..] == parts;
    }
  }

  /** Splitting then joining gives the text back. */
  lemma {:induction false} JoinSplit(s: string)
    ensures Join(Split(s)) == s
    decreases |s|
  {
    if |s| > 0 {
      JoinSplit(s[1..]);
      var rest := Split(s[1..]);
      if s[0] == '/' {
        assert Join([""] + rest) == "" + "/" + Join(rest);
        assert s == "/" + s[1..];
      } else if |rest| == 1 {
        assert s == [s[0]] + s[1..];
      } else {
        var parts := [[s[0]] + rest[0]] + rest[1..];
        assert parts[1..] == rest[1..];
        assert Join(rest) == rest[0] + "/" + Join(rest[1..]);
        assert s == [s[0]] + s[1..];
      }
    }
  }

  lemma {:induction false} JoinFirst(segs: seq<string>)
    requires |segs| >= 1 && |segs[0]| >= 1
    ensures |Join(segs)| >= 1 && Join(segs)[0] == segs[0][0]
  {
  }

  lemma {:induction false} JoinLast(segs: seq<string>)
    requires |segs| >= 1 && |segs[|segs| - 1]| >= 1
    ensures |Join(segs)| >= 1 && Join(segs)[|Join(segs)| - 1] == segs[|segs| - 1][|segs[|segs| - 1]| - 1]
    decreases |segs|
  {
    if |segs| > 1 {
      JoinLast(segs[1..]);
    }
  }

  lemma {:induction false} JoinSnoc(segs: seq<string>, x: string)
    requires |segs| >= 1
    ensures Join(segs + [x]) == Join(segs) + "/" + x
    decreases |segs|
  {
    if |segs| > 1 {
      JoinSnoc(segs[1..], x);
      assert (segs + [x])[1..] == segs[1..] + [x];
    } else {
      assert segs + [x] == [segs[0], x];
    }
  }

  lemma RenderChild(p: Path, name: string)
    requires WellFormed(p.segs) && p.root == Single && p.segs != []
    requires IsSegment(name)
    ensures Split(name) == [name]
    ensures Render(Path(Single, p.segs + Clean(Split(name)))) == Render(p) + "/" + name
  {
    SplitNoSlash(name);
    assert Clean([name]) == [name];
    JoinSnoc(p.segs, name);
  }

  /** A directory already in normal form, with one leading separator and at
      least one segment, names a child by appending a separator and the name. */
  lemma ChildOfNormalDir(home: string, cwd: AbsString, dir: string, name: string)
    requires IsAbs(dir) && NormPath(dir) == dir && dir != "/" && RootOf(dir) == Single
    requires IsSegment(name)
    ensures SafePath(home, cwd, dir, name) == Ok(dir + "/" + name)
  {
    assert ExpandUser(home, dir) == dir;
    assert BaseDir(home, cwd, dir) == dir;
    var p := Parse(dir);
    assert Render(p) == dir;
    assert Render(Path(Single, [])) == "/";
    RenderChild(p, name);
    RelativeNameStaysInside(home, cwd, dir, name);
  }

  /** Under a base that normalises with one leading separator and at least one
      segment, a plain segment name resolves to the normalised base, a separator
      and the name. */
  lemma ChildOfBase(home: string, cwd: AbsString, dir: string, name: string)
    requires var p := Parse(BaseDir(home, cwd, dir)); p.root == Single && p.segs != []
    requires IsSegment(name)
    ensures SafePath(home, cwd, dir, name) == Ok(NormPath(BaseDir(home, cwd, dir)) + "/" + name)
  {
    var p := Parse(BaseDir(home, cwd, dir));
    RenderChild(p, name);
    RelativeNameStaysInside(home, cwd, dir, name);
  }

  /** A directory already in normal form is its own normalised base. */
  lemma NormalDirIsBase(home: string, cwd: AbsString, dir: string)
    requires IsAbs(dir) && NormPath(dir) == dir && dir != "/" && RootOf(dir) == Single
    ensures NormPath(BaseDir(home, cwd, dir)) == dir
    ensures var p := Parse(BaseDir(home, cwd, dir)); p.root == Single && p.segs != []
  {
    assert ExpandUser(home, dir) == dir;
    assert BaseDir(home, cwd, dir) == dir;
    assert Render(Path(Single, [])) == "/";
  }

  /** Distinct well-formed segment lists render to distinct texts. */
  lemma JoinInjective(a: seq<string>, b: seq<string>)
    requires WellFormed(a) && WellFormed(b)
    requires Join(a) == Join(b)
    ensures a == b
  {
    if |a| == 0 && |b| > 0 {
      JoinFirst(b);
    } else if |b| == 0 && |a| > 0 {
      JoinFirst(a);
    } else if |a| > 0 {
      SplitJoin(a);
      SplitJoin(b);
    }
  }

  // ---------------------------------------------------------------------------
  // Normalisation

  lemma {:induction false} ResolveAppend(stack: seq<string>, a: seq<string>, b: seq<string>)
    ensures Resolve(stack, a + b) == Resolve(Resolve(stack, a), b)
    decreases |a|
  {
    if |a| == 0 {
      assert a + b == b;
    } else {
      assert (a + b)[0] == a[0];
      assert (a + b)[1..] == a[1..] + b;
      ResolveAppend(Step(stack, a[0]), a[1..], b);
    }
  }

  lemma ResolveSkipEmpty(stack: seq<string>, x: seq<string>)
    ensures Resolve(stack, [""] + x) == Resolve(stack, x)
  {
    assert ([""] + x)[1..] == x;
  }

  lemma CleanSkipEmpty(x: seq<string>)
    ensures Clean([""] + x) == Clean(x)
  {
    assert ([""] + x)[1..] == x;
  }

  /** Well-formed segments are pushed as they are. */
  lemma {:induction false} ResolveSegments(stack: seq<string>, segs: seq<string>)
    requires WellFormed(segs)
    ensures Resolve(stack, segs) == stack + segs
    decreases |segs|
  {
    if |segs| > 0 {
      ResolveSegments(stack + [segs[0]], segs[1..]);
      assert stack + [segs[0]] + segs[1..] == stack + segs;
    }
  }

  /** Without `..` pieces, normalisation only drops empty pieces and `.`. */
  lemma {:induction false} ResolveWithoutParent(stack: seq<string>, parts: seq<string>)
    requires forall i :: 0 <= i < |parts| ==> parts[i] != ".."
    ensures Resolve(stack, parts) == stack + Clean(parts)
    decreases |parts|
  {
    if |parts| > 0 {
      ResolveWithoutParent(Step(stack, parts[0]), parts[1..]);
      if parts[0] != "" && parts[0] != "." {
        assert stack + [parts[0]] + Clean(parts[1..]) == stack + ([parts[0]] + Clean(parts[1..]));
      }
    }
  }

  lemma {:induction false} CleanSegments(segs: seq<string>)
    requires WellFormed(segs)
    ensures Clean(segs) == segs
    decreases |segs|
  {
    if |segs| > 0 {
      CleanSegments(segs[1..]);
      assert [segs[0]] + segs[1..] == segs;
    }
  }

  function Pieces(p: Path): seq<string> {
    (if p.root == Double then ["", ""] else [""]) + (if p.segs == [] then [""] else p.segs)
  }

  lemma SplitRender(p: Path)
    requires WellFormed(p.segs)
    ensures Split(Render(p)) == Pieces(p)
  {
    var j := Join(p.segs);
    if p.segs != [] {
      SplitJoin(p.segs);
    }
    SplitAfterSlash(j);
    if p.root == Double {
      assert Render(p) == "/" + ("/" + j);
      SplitAfterSlash("/" + j);
    }
  }

  lemma RootOfRender(p: Path)
    requires WellFormed(p.segs)
    ensures RootOf(Render(p)) == p.root
  {
    if p.segs != [] {
      JoinFirst(p.segs);
    }
  }

  /** Rendering a normalised path and parsing the text gives the path back. */
  lemma ParseRender(p: Path)
    requires WellFormed(p.segs)
    ensures Parse(Render(p)) == p
  {
    RootOfRender(p);
    SplitRender(p);
    var body := if p.segs == [] then [""] else p.segs;
    ResolveSegments([], p.segs);
    ResolveSkipEmpty([], []);
    ResolveSkipEmpty([], body);
    if p.root == Double {
      assert Pieces(p) == [""] + ([""] + body);
      ResolveSkipEmpty([], [""] + body);
    } else {
      assert Pieces(p) == [""] + body;
    }
  }

  /** `normpath` is idempotent. */
  lemma NormPathIdempotent(s: string)
    requires IsAbs(s)
    ensures NormPath(NormPath(s)) == NormPath(s)
  {
    ParseRender(Parse(s));
  }

  /** `commonpath` sees exactly the segments of a rendered path. */
  lemma CleanRender(p: Path)
    requires WellFormed(p.segs)
    ensures Clean(Split(Render(p))) == p.segs
  {
    SplitRender(p);
    CleanPieces(p);
  }

  lemma CleanPieces(p: Path)
    requires WellFormed(p.segs)
    ensures Clean(Pieces(p)) == p.segs
  {
    var body := if p.segs == [] then [""] else p.segs;
    assert Clean(body) == p.segs by {
      CleanSegments(p.segs);
      CleanSkipEmpty([]);
      assert [""] + [] == [""];
    }
    CleanSkipEmpty(body);
    if p.root == Double {
      assert Pieces(p) == [""] + ([""] + body);
      CleanSkipEmpty([""] + body);
    } else {
      assert Pieces(p) == [""] + body;
    }
  }

  lemma RootKept(p: Path, f: string)
    requires WellFormed(p.segs) && p.segs != []
    ensures RootOf(Render(p) + "/" + f) == p.root
  {
    JoinFirst(p.segs);
    RootOfRender(p);
    var r := Render(p);
    var s := r + "/" + f;
    assert s[1] == r[1] && (|r| >= 3 ==> s[2] == r[2]);
  }

  lemma SegmentsKept(p: Path, f: string)
    requires WellFormed(p.segs) && p.segs != []
    ensures Resolve([], Split(Render(p) + "/" + f)) == Resolve(p.segs, Split(f))
  {
    SplitConcatSlash(Render(p), f);
    SplitRender(p);
    ResolveAppend([], Pieces(p), Split(f));
    ResolveSegments([], p.segs);
    ResolveSkipEmpty([], p.segs);
    if p.root == Double {
      assert Pieces(p) == [""] + ([""] + p.segs);
      ResolveSkipEmpty([], [""] + p.segs);
    } else {
      assert Pieces(p) == [""] + p.segs;
    }
    assert Resolve([], Pieces(p)) == p.segs;
    assert Split(Render(p) + "/" + f) == Pieces(p) + Split(f);
  }

  lemma JoinAtRoot(p: Path, f: string)
    requires p.segs == [] && !IsAbs(f)
    ensures Parse(Render(p) + f) == Path(p.root, Resolve([], Split(f)))
  {
    var r := Render(p);
    if p.root == Single {
      assert r + f == "/" + f;
      SplitAfterSlash(f);
      ResolveSkipEmpty([], Split(f));
    } else {
      assert r + f == "/" + ("/" + f);
      SplitAfterSlash("/" + f);
      SplitAfterSlash(f);
      ResolveSkipEmpty([], [""] + Split(f));
      ResolveSkipEmpty([], Split(f));
    }
  }

  /** Joining a name onto a rendered normalised path and parsing the result is
      the same as folding the name's pieces onto the path's segments. */
  lemma JoinParse(p: Path, f: string)
    requires WellFormed(p.segs)
    ensures IsAbs(PathJoin(Render(p), f))
    ensures Parse(PathJoin(Render(p), f)) == TargetOf(p, f)
  {
    if !IsAbs(f) {
      var r := Render(p);
      if p.segs == [] {
        assert PathJoin(r, f) == r + f;
        JoinAtRoot(p, f);
      } else {
        JoinLast(p.segs);
        assert PathJoin(r, f) == r + "/" + f;
        RootKept(p, f);
        SegmentsKept(p, f);
      }
    }
  }

  // ---------------------------------------------------------------------------
  // Containment

  /** The string comparison `commonpath([base, target]) == base` holds exactly
      when the base has a single leading separator and its segments are a prefix
      of the target's. */
  lemma CommonPathIsBase(p: Path, q: Path)
    requires WellFormed(p.segs) && WellFormed(q.segs)
    ensures CommonPath(Render(p), Render(q)) == Some(Render(p)) <==> p.root == Single && p.segs <= q.segs
  {
    CleanRender(p);
    CleanRender(q);
    var c := CommonPrefix(p.segs, q.segs);
    assert WellFormed(c) by {
      forall i | 0 <= i < |c| ensures IsSegment(c[i]) {
        assert c[i] == p.segs[i];
      }
    }
    assert CommonPath(Render(p), Render(q)) == Some("/" + Join(c));
    if p.root == Single && p.segs <= q.segs {
      assert c == p.segs;
    }
    if "/" + Join(c) == Render(p) {
      if c != [] {
        JoinFirst(c);
      }
      if p.root == Double {
        assert false;
      }
      assert Join(c) == Join(p.segs);
      JoinInjective(c, p.segs);
    }
  }

  /** `SafePath` succeeds exactly when the normalised target keeps the base's
      segments as a prefix (and the base has one leading separator), and then
      returns the rendered target. */
  lemma SafePathCharacterised(home: string, cwd: AbsString, dir: string, filename: string)
    ensures
      var base := BaseDir(home, cwd, dir);
      var target := AbsPath(cwd, PathJoin(base, filename));
      var p := Parse(base);
      var q := TargetOf(p, filename);
      && base == Render(p)
      && target == Render(q)
      && Parse(target) == q
      && (CommonPath(base, target) == Some(base) <==> p.root == Single && p.segs <= q.segs)
  {
    var x := ExpandUser(home, dir);
    var x' := if IsAbs(x) then x else PathJoin(cwd, x);
    var base := BaseDir(home, cwd, dir);
    ParseRender(Parse(x'));
    var p := Parse(base);
    JoinParse(p, filename);
    var q := TargetOf(p, filename);
    ParseRender(q);
    CommonPathIsBase(p, q);
  }

  /** The same statement in terms of the function's result. */
  lemma SafePathIff(home: string, cwd: AbsString, dir: string, filename: string)
    ensures
      var p := Parse(BaseDir(home, cwd, dir));
      var q := TargetOf(p, filename);
      SafePath(home, cwd, dir, filename)
        == if p.root == Single && p.segs <= q.segs then Ok(Render(q)) else Err(OutsideNotes(filename))
  {
    SafePathCharacterised(home, cwd, dir, filename);
  }

  /** A relative name without `..` pieces stays inside a single-rooted base and
      lands on the base's segments followed by the name's non-empty pieces. */
  lemma RelativeNameStaysInside(home: string, cwd: AbsString, dir: string, filename: string)
    requires !IsAbs(filename)
    requires forall i :: 0 <= i < |Split(filename)| ==> Split(filename)[i] != ".."
    requires Parse(BaseDir(home, cwd, dir)).root == Single
    ensures
      var p := Parse(BaseDir(home, cwd, dir));
      SafePath(home, cwd, dir, filename) == Ok(Render(Path(Single, p.segs + Clean(Split(filename)))))
  {
    SafePathIff(home, cwd, dir, filename);
    var p := Parse(BaseDir(home, cwd, dir));
    ResolveWithoutParent(p.segs, Split(filename));
  }

  /** A base that normalises with exactly two leading separators rejects every
      name: `commonpath` always answers with a single separator. */
  lemma DoubleRootRejectsEverything(home: string, cwd: AbsString, dir: string, filename: string)
    requires Parse(BaseDir(home, cwd, dir)).root == Double
    ensures SafePath(home, cwd, dir, filename) == Err(OutsideNotes(filename))
  {
  }

  /** An absolute name replaces the base, so it is accepted exactly when its own
      normal form lies at or below the base. */
  lemma AbsoluteNameReplacesBase(home: string, cwd: AbsString, dir: string, filename: string)
    requires IsAbs(filename)
    ensures
      var p := Parse(BaseDir(home, cwd, dir));
      (SafePath(home, cwd, dir, filename).Ok? <==> p.root == Single && p.segs <= Parse(filename).segs)
    ensures SafePath(home, cwd, dir, filename).Ok? ==> SafePath(home, cwd, dir, filename).value == NormPath(filename)
  {
    SafePathIff(home, cwd, dir, filename);
  }

  /** Climbing out with a leading `..` is rejected unless the next piece walks
      straight back into the base's last directory. */
  lemma ParentEscapes(home: string, cwd: AbsString, dir: string, rest: string)
    requires
      var p := Parse(BaseDir(home, cwd, dir));
      |p.segs| > 0 && p.segs[|p.segs| - 1] !in Split(rest)
    requires forall i :: 0 <= i < |Split(rest)| ==> Split(rest)[i] != ".."
    ensures SafePath(home, cwd, dir, "../" + rest) == Err(OutsideNotes("../" + rest))
  {
    var f := "../" + rest;
    SafePathIff(home, cwd, dir, f);
    var p := Parse(BaseDir(home, cwd, dir));
    ParentThenRest(p.segs, rest);
    NotBelowAfterParent(p.segs, Split(rest));
  }

  /** `k` leading `../` pieces. */
  function Climb(k: nat): (r: string)
    ensures k > 0 ==> !IsAbs(r)
  {
    if k == 0 then "" else "../" + Climb(k - 1)
  }

  function Parents(k: nat): (r: seq<string>)
    ensures |r| == k && forall i :: 0 <= i < k ==> r[i] == ".."
  {
    if k == 0 then [] else [".."] + Parents(k - 1)
  }

  /** How many base segments survive `k` parent steps; `..` stops at the root. */
  function Kept(n: nat, k: nat): nat {
    if k <= n then n - k else 0
  }

  /** Climbing out of the base with `k >= 1` leading `..` pieces is refused
      unless the rest of the name walks back into the first directory climbed
      out of; for example `../../etc/passwd`. */
  lemma ClimbEscapes(home: string, cwd: AbsString, dir: string, k: nat, rest: string)
    requires k > 0
    requires
      var p := Parse(BaseDir(home, cwd, dir));
      |p.segs| > 0 && p.segs[Kept(|p.segs|, k)] !in Split(rest)
    requires forall i :: 0 <= i < |Split(rest)| ==> Split(rest)[i] != ".."
    ensures SafePath(home, cwd, dir, Climb(k) + rest) == Err(OutsideNotes(Climb(k) + rest))
  {
    var f := Climb(k) + rest;
    SafePathIff(home, cwd, dir, f);
    var p := Parse(BaseDir(home, cwd, dir));
    SplitClimb(k, rest);
    ResolveParents(p.segs, k, Split(rest));
    ResolveWithoutParent(p.segs[..Kept(|p.segs|, k)], Split(rest));
    NotBelowAfterClimb(p.segs, Kept(|p.segs|, k), Split(rest));
  }

  lemma {:induction false} SplitClimb(k: nat, rest: string)
    ensures Split(Climb(k) + rest) == Parents(k) + Split(rest)
  {
    if k > 0 {
      var tail := Climb(k - 1) + rest;
      calc {
        Climb(k) + rest;
        ("../" + Climb(k - 1)) + rest;
        ".." + "/" + tail;
      }
      SplitConcatSlash("..", tail);
      SplitNoSlash("..");
      SplitClimb(k - 1, rest);
      assert Parents(k) + Split(rest) == [".."] + (Parents(k - 1) + Split(rest));
    } else {
      assert Climb(0) + rest == rest;
      assert Parents(0) + Split(rest) == Split(rest);
    }
  }

  lemma {:induction false} ResolveParents(segs: seq<string>, k: nat, parts: seq<string>)
    ensures Resolve(segs, Parents(k) + parts) == Resolve(segs[..Kept(|segs|, k)], parts)
  {
    if k == 0 {
      assert segs[..|segs|] == segs;
      assert Parents(0) + parts == parts;
    } else {
      var up := Step(segs, "..");
      assert (Parents(k) + parts)[0] == "..";
      assert (Parents(k) + parts)[1..] == Parents(k - 1) + parts;
      ResolveParents(up, k - 1, parts);
      assert up[..Kept(|up|, k - 1)] == segs[..Kept(|segs|, k)];
    }
  }

  lemma NotBelowAfterClimb(segs: seq<string>, m: nat, parts: seq<string>)
    requires m < |segs| && segs[m] !in parts
    ensures !(segs <= segs[..m] + Clean(parts))
  {
    var q := segs[..m] + Clean(parts);
    if segs <= q {
      assert q[m] == segs[m];
      assert Clean(parts)[0] == q[m];
      CleanMember(parts, 0);
      assert false;
    }
  }

  /** The classic traversal `../../etc/passwd` from a base at least two levels
      deep leaves it, unless the base's parent is itself named `etc` or `passwd`. */
  lemma EtcPasswdEscapes(home: string, cwd: AbsString, dir: string)
    requires var p := Parse(BaseDir(home, cwd, dir));
      |p.segs| >= 2 && p.segs[|p.segs| - 2] != "etc" && p.segs[|p.segs| - 2] != "passwd"
    ensures SafePath(home, cwd, dir, "../../etc/passwd") == Err(OutsideNotes("../../etc/passwd"))
  {
    var p := Parse(BaseDir(home, cwd, dir));
    EtcPasswdPieces();
    assert Kept(|p.segs|, 2) == |p.segs| - 2;
    assert p.segs[|p.segs| - 2] !in Split("etc/passwd");
    ClimbEscapes(home, cwd, dir, 2, "etc/passwd");
    var f := Climb(2) + "etc/passwd";
    assert SafePath(home, cwd, dir, f) == Err(OutsideNotes(f));
    assert f == "../../etc/passwd";
  }

  lemma EtcPasswdPieces()
    ensures Split("etc/passwd") == ["etc", "passwd"]
    ensures Climb(2) + "etc/passwd" == "../../etc/passwd"
  {
    EtcPasswdSplit();
    ClimbEtcPasswd();
  }

  lemma ClimbEtcPasswd()
    ensures Climb(2) + "etc/passwd" == "../../etc/passwd"
  {
    ClimbTwice("etc/passwd");
    var once := "../" + "etc/passwd";
    assert once == "../etc/passwd";
    assert "../" + once == "../../etc/passwd";
  }

  lemma ClimbTwice(rest: string)
    ensures Climb(2) + rest == "../" + ("../" + rest)
  {
    assert Climb(2) == "../" + Climb(1);
    assert Climb(1) == "../" + Climb(0);
  }

  lemma EtcPasswdSplit()
    ensures Split("etc/passwd") == ["etc", "passwd"]
  {
    SplitTwo("etc", "passwd");
    assert "etc" + "/" + "passwd" == "etc/passwd";
  }

  lemma SplitTwo(a: string, b: string)
    requires '/' !in a && '/' !in b
    ensures Split(a + "/" + b) == [a, b]
  {
    SplitConcatSlash(a, b);
    SplitNoSlash(a);
    SplitNoSlash(b);
  }

  lemma ParentThenRest(segs: seq<string>, rest: string)
    requires |segs| > 0
    requires forall i :: 0 <= i < |Split(rest)| ==> Split(rest)[i] != ".."
    ensures !IsAbs("../" + rest)
    ensures Resolve(segs, Split("../" + rest)) == segs[..|segs| - 1] + Clean(Split(rest))
  {
    assert "../" + rest == ".." + "/" + rest;
    SplitConcatSlash("..", rest);
    SplitNoSlash("..");
    assert Split("../" + rest) == [".."] + Split(rest);
    assert ([".."] + Split(rest))[1..] == Split(rest);
    ResolveWithoutParent(segs[..|segs| - 1], Split(rest));
  }

  lemma NotBelowAfterParent(segs: seq<string>, parts: seq<string>)
    requires |segs| > 0 && segs[|segs| - 1] !in parts
    ensures !(segs <= segs[..|segs| - 1] + Clean(parts))
  {
    var up := segs[..|segs| - 1];
    var q := up + Clean(parts);
    if segs <= q {
      assert q[|up|] == segs[|segs| - 1];
      assert Clean(parts)[0] == q[|up|];
      CleanMember(parts, 0);
      assert false;
    }
  }

  lemma {:induction false} CleanMember(parts: seq<string>, i: nat)
    requires i < |Clean(parts)|
    ensures Clean(parts)[i] in parts
    decreases |parts|
  {
    if parts[0] == "" || parts[0] == "." {
      CleanMember(parts[1..], i);
    } else if i > 0 {
      CleanMember(parts[1..], i - 1);
    }
  }
}

=== FILE: strings.dfy ===
/** The few `str` methods the notes tool relies on. */
module Strings {

  /** `s.startswith(prefix)`. */
  predicate StartsWith(s: string, prefix: string) {
    prefix <= s
  }

  /** `s.endswith(suffix)`; every string ends with the empty suffix. */
  predicate EndsWith(s: string, suffix: string) {
    |suffix| <= |s| && s[|s| - |suffix|..] == suffix
  }

  /** `sub in s`: some suffix of `s` starts with `sub`. */
  predicate Contains(s: string, sub: string)
    decreases |s|
  {
    StartsWith(s, sub) || (|s| > 0 && Contains(s[1..], sub))
  }

  /** A text that contains `sub` still contains it once more text is put around it. */
  lemma {:induction false} ContainsInContext(a: string, s: string, b: string, sub: string)
    requires Contains(s, sub)
    ensures Contains(a + s + b, sub)
    decreases |a|, |s|
  {
    if |a| > 0 {
      assert (a + s + b)[1..] == a[1..] + s + b;
      ContainsInContext(a[1..], s, b, sub);
    } else if StartsWith(s, sub) {
      assert a + s + b == s + b;
      assert sub <= s + b;
    } else {
      assert |s| > 0 && Contains(s[1..], sub);
      assert a + s + b == s + b;
      assert (s + b)[1..] == s[1..] + b;
      ContainsInContext([], s[1..], b, sub);
      assert [] + s[1..] + b == s[1..] + b;
    }
  }

  /** One character of `str.lower()`, restricted to ASCII letters. */
  function LowerChar(c: char): (r: char)
    ensures 'A' <= c <= 'Z' ==> 'a' <= r <= 'z'
    ensures !('A' <= c <= 'Z') ==> r == c
  {
    if 'A' <= c <= 'Z' then (c as int - 'A' as int + 'a' as int) as char else c
  }

  /** `s.lower()` with ASCII case folding. */
  function Lower(s: string): (r: string)
    ensures |r| == |s|
    ensures forall i :: 0 <= i < |s| ==> r[i] == LowerChar(s[i])
    ensures forall i :: 0 <= i < |r| ==> !('A' <= r[i] <= 'Z')
  {
    seq(|s|, i requires 0 <= i < |s| => LowerChar(s[i]))
  }
}

=== FILE: wrappers.dfy ===
/** Failure-carrying datatypes shared by the other modules. */
module Wrappers {

  /** An optional value: Python's `None` or a present value. */
  datatype Option<+T> = None | Some(value: T)

  /** The outcome of an operation that may raise instead of returning. */
  datatype Result<+T, +E> = Ok(value: T) | Err(error: E)
}
